=== FILE: README.md ===
# Stock watchlist and ticker autocomplete, modelled in Dafny

This project models the two pieces of sequential logic in a single-page stock
prediction front end.

- **The watchlist page** (`src/components/Watchlist.jsx`) keeps a list of
  tracked stocks in browser storage. A search box fetches a quote and builds a
  *preview* of it: the last 30 dates and prices, plus the latest price. The
  user can add the preview to the list, or remove any tracked stock by symbol.
  Each stock is drawn as a chart of (date, price) points.
- **The ticker box of the home page** (`src/pages/Home.jsx`) autocompletes the
  typed ticker from a fixed list of 23 symbols. ArrowDown and ArrowUp move a
  highlight through the suggestions, wrapping at both ends. Enter or a click
  commits a suggestion.

Each React handler and each effect is a pure transition function on an
immutable state record.

- **Effects.** React runs an effect only when one of its dependencies changed.
  The model makes this explicit. On the home page, `Home.Settle` runs the
  `[ticker]` effect only when a handler changed the ticker. On the watchlist
  page, the save effect follows every `setStockData` call.
- **Network.** The quote endpoint's answer is an input (`Watchlist.Fetch`,
  `Ok(dates, prices, isHoliday)` or `Err`), not a call.
- **Storage.** Browser storage is the abstract slot `stored : Option<seq<Stock>>`.

Modules:

| file | module | contents |
|---|---|---|
| wrappers.dfy | `Wrappers` | `Option` (JavaScript's `undefined`/`null`) and `Result` |
| text.dfy | `Text` | `toUpperCase`, `trim` and `startsWith` on `string` |
| seqs.dfy | `Seqs` | the array operations the code uses: `slice`, indexing that may give `undefined`, and `filter`; plus subsequences |
| watchlist.dfy | `Watchlist` | the watchlist list operations, preview, chart data, persistence effects and search |
| home.dfy | `Home` | the suggestion filter, highlight arithmetic, key/click handlers, the ticker effect and the invariant of the state machine |

Some behaviours of the code are easy to miss and the model keeps them:
- A failed fetch sets the error message and keeps the previous preview
  (src/components/Watchlist.jsx:64-65).
- A reply to an older search is not discarded: `fetchStockData` has no
  request sequencing (src/components/Watchlist.jsx:43-69).
- The save effect skips an empty list (src/components/Watchlist.jsx:37),
  although its own comment says the list is saved "whenever it changes"
  (line 35). See "## Findings".
- Malformed stored content makes `JSON.parse` throw
  (src/components/Watchlist.jsx:29). The model does not represent malformed
  content.

The home page has one more behaviour worth knowing. When a clicked or
Enter-committed suggestion differs from the typed ticker, the `[ticker]`
effect runs again. The list then reopens, filtered by the committed symbol
(`Home.ClickReopensList`).

## Model

| member | source | states |
|---|---|---|
| `Text.Upper` | src/pages/Home.jsx:90 | `toUpperCase` keeps the length, maps every character through the per-letter upper-casing, and leaves no lower-case letter |
| `Text.Trim` | src/components/Watchlist.jsx:72 | `trim` never lengthens the string, and what it returns neither starts nor ends with whitespace |
| `Text.StartsWithUpper` | src/pages/Home.jsx:56 | `startsWith`: a prefix stays a prefix when both strings are upper-cased |
| `Text.UpperIdempotent` | src/pages/Home.jsx:90 | upper-casing the typed text twice is the same as doing it once |
| `Text.TrimEmptyIffBlank` | src/components/Watchlist.jsx:72 | `query.trim() === ''` holds exactly when every character of the query is whitespace |
| `Seqs.Slice` | src/components/Watchlist.jsx:56-57 | `slice(start)` returns a suffix of the array: of length length-start for a start inside it, and of length -start for a negative start no further back than the array's length |
| `Seqs.At` | src/pages/Home.jsx:45 | `xs[i]` is defined exactly when 0 <= i < length, and is then the element at i; otherwise it is `undefined` |
| `Seqs.SliceNegativeIsLastN` | src/components/Watchlist.jsx:56-57 | `slice(-n)` keeps exactly the last min(n, length) elements in order, and ends with the array's last element |
| `Seqs.Filter` | src/components/Watchlist.jsx:87 | `filter` returns a subsequence of its input that holds only accepted elements and all of them, in the original order |
| `Seqs.FilterConcat` | src/components/Watchlist.jsx:87 | filtering a concatenation is concatenating the filtered parts |
| `Watchlist.Find` | src/components/Watchlist.jsx:77 | `find` by symbol yields nothing exactly when no entry has that symbol, and otherwise the first entry of the list with that symbol |
| `Watchlist.Add` | src/components/Watchlist.jsx:76-80 | an absent symbol is appended at the end; a present symbol leaves the list unchanged; the symbol set gains exactly the new symbol |
| `Watchlist.AddKeepsFirstPayload` | src/components/Watchlist.jsx:76-80 | a second add with the same symbol but another payload changes nothing, and the first payload stays in place |
| `Watchlist.AddIdempotent` | src/components/Watchlist.jsx:76-80 | adding the same stock twice is the same as adding it once |
| `Watchlist.Remove` | src/components/Watchlist.jsx:86-88 | removal keeps the other entries as a subsequence in their original order, drops every entry with the symbol, and changes nothing when the symbol is absent |
| `Watchlist.FilterKeepsOthers` | src/components/Watchlist.jsx:87 | the filter in remove keeps every entry whose symbol differs |
| `Watchlist.FilterDropsSymbol` | src/components/Watchlist.jsx:87 | the filter in remove takes exactly the removed symbol out of the set of tracked symbols |
| `Watchlist.FilterWithoutSymbol` | src/components/Watchlist.jsx:87 | the filter in remove leaves a list that lacks the symbol unchanged |
| `Watchlist.RemoveCons` | src/components/Watchlist.jsx:87 | removing from a list keeps its head exactly when the head carries another symbol, and removes from the rest |
| `Watchlist.RemoveIdempotent` | src/components/Watchlist.jsx:86-88 | removing a symbol twice is the same as removing it once |
| `Watchlist.RemoveUndoesAdd` | src/components/Watchlist.jsx:76-88 | removing a freshly added symbol gives back the original list |
| `Watchlist.AddPreservesUnique` | src/components/Watchlist.jsx:76-80 | add keeps symbols unique |
| `Watchlist.RemovePreservesUnique` | src/components/Watchlist.jsx:86-88 | remove keeps symbols unique |
| `Watchlist.ApplyAllMatchesSetModel` | src/components/Watchlist.jsx:76-89 | after any sequence of adds and removes, the list holds exactly the symbols added and not removed since, with no duplicates |
| `Watchlist.MakePreview` | src/components/Watchlist.jsx:53-60 | the preview's dates and prices are the last min(30, n) entries of the fetched arrays; its name and symbol are the searched symbol; its current price is the last fetched price, or undefined when there are no prices |
| `Watchlist.PreviewShape` | src/components/Watchlist.jsx:53-60 | a preview holds at most 30 dates and prices; its current price is the last price it charts; aligned input arrays give aligned preview arrays |
| `Watchlist.AddAaplTwiceScenario` | src/components/Watchlist.jsx:53-80 | with an empty list, adding AAPL priced 150.0 then 151.2 gives one entry at 151.2; a second AAPL payload is ignored |
| `Watchlist.ChartData` | src/components/Watchlist.jsx:91-96 | one chart point per date; point i pairs dates[i] with prices[i], and the price is undefined past the end of the prices |
| `Watchlist.ChartDataUnzips` | src/components/Watchlist.jsx:91-96 | unzipping the chart gives back the dates and the matching prefix of the prices, and fails exactly when there are fewer prices than dates |
| `Watchlist.AlignedChartUnzips` | src/components/Watchlist.jsx:91-96 | for dates and prices of equal length, every chart point has its price and the chart unzips to the same two arrays |
| `Watchlist.PreviewChartComplete` | src/components/Watchlist.jsx:91-96 | the chart of a preview built from aligned arrays has a price at every point and unzips to the preview's own dates and prices |
| `Watchlist.Persist` | src/components/Watchlist.jsx:36-40 | the save effect writes the whole list when it is non-empty and otherwise leaves storage as it was; nothing else changes |
| `Watchlist.Load` | src/components/Watchlist.jsx:28-33 | loading replaces the list exactly when storage holds a value (an empty list counts), and changes nothing else |
| `Watchlist.Mount` | src/components/Watchlist.jsx:28-40 | after mounting, the list is the stored one (or empty), and storage is unchanged |
| `Watchlist.ReloadAfterPersist` | src/components/Watchlist.jsx:28-40 | writing a non-empty list and mounting again gives the same list back |
| `Watchlist.InputChange` | src/components/Watchlist.jsx:117 | the search input holds the typed text upper-cased, character by character; nothing else changes |
| `Watchlist.BeginSearch` | src/components/Watchlist.jsx:71-74 | a blank query does nothing; otherwise loading starts, the error clears, and the upper-cased query is requested |
| `Watchlist.CompleteFetch` | src/components/Watchlist.jsx:43-69 | loading ends false; a failure sets the error message and keeps preview, list and storage; a success installs the preview |
| `Watchlist.Search` | src/components/Watchlist.jsx:43-74 | a whole search: a blank query changes nothing; the query is always kept; a failure sets the error and ends loading and changes nothing else; a success clears the error, ends loading, previews the upper-cased query and changes nothing else |
| `Watchlist.AddToWatchlist` | src/components/Watchlist.jsx:76-84 | a new symbol is appended and the list is saved; a known symbol changes nothing at all; no field other than the list and storage ever changes |
| `Watchlist.RemoveFromWatchlist` | src/components/Watchlist.jsx:86-89 | the list loses the symbol; storage receives the list unless it became empty, in which case it keeps the old snapshot; no field other than the list and storage changes |
| `Watchlist.Step` | src/components/Watchlist.jsx:98-122 | the wiring of the page's inputs: typing sets the upper-cased query; Enter and the search button run a search; the add button adds the shown preview (line 137) and does nothing without one; remove removes the symbol (line 190); a key other than Enter does nothing; typing and searching never touch the list or storage, and typing, add and remove never touch the preview |
| `Watchlist.MountEstablishesInv` | src/components/Watchlist.jsx:28-40 | mounting on storage with unique symbols sets up the page invariant |
| `Watchlist.StepPreservesInv` | src/components/Watchlist.jsx:28-89 | every user action keeps symbols unique in the list and in storage, and keeps a non-empty list mirrored in storage |
| `Watchlist.RemoveLastIsNotPersisted` | src/components/Watchlist.jsx:37 | removing the only stock leaves its snapshot in storage, so the next mount shows it again |
| `Watchlist.PersistOnChange` | src/components/Watchlist.jsx:35-40 | the corrected save effect writes the list on every change, including an empty list |
| `Watchlist.RemoveWriteThrough` | src/components/Watchlist.jsx:86-89 | remove followed by the corrected save: storage holds the resulting list; no other field changes |
| `Watchlist.AddWriteThrough` | src/components/Watchlist.jsx:76-84 | add followed by the corrected save: storage holds the resulting list when it changed; no other field changes |
| `Watchlist.WriteThroughReloadsSameList` | src/components/Watchlist.jsx:28-40 | with the corrected save, storage stays in sync after every action, so mounting again shows exactly the current list |
| `Home.SuggestionsSpec` | src/pages/Home.jsx:53-58 | the suggestions are a subsequence of the 23-symbol list: every symbol that starts with the ticker (ignoring case) and only those, in list order |
| `Home.FilterByTickerIsFilter` | src/pages/Home.jsx:55-57 | the per-symbol suggestion filter equals `filter` with the case-insensitive `startsWith` predicate |
| `Home.SuggestionsExact` | src/pages/Home.jsx:55-57 | a symbol is suggested if and only if it is listed and starts with the ticker, ignoring case |
| `Home.SuggestionsIgnoreCase` | src/pages/Home.jsx:56 | a ticker and its upper-cased form get the same suggestions |
| `Home.NextIndex` | src/pages/Home.jsx:34-35 | ArrowDown moves to prev+1 below the last index, and gives 0 from the last index or beyond, including on an empty list; for -1 <= prev < len on a non-empty list it equals (prev+1) mod len and stays in range |
| `Home.PrevIndex` | src/pages/Home.jsx:39-40 | ArrowUp moves to prev-1 above 0, and gives len-1 from 0 or below, which is -1 on an empty list; inside a non-empty list it equals (prev-1+len) mod len |
| `Home.ArrowKeysInverse` | src/pages/Home.jsx:32-41 | inside the list, ArrowUp undoes ArrowDown and ArrowDown undoes ArrowUp |
| `Home.PressDownFullCycle` | src/pages/Home.jsx:34-35 | pressing ArrowDown as many times as there are suggestions returns the highlight to where it started |
| `Home.EmptyListArrowDownLeavesRange` | src/pages/Home.jsx:34-35 | on an empty list, ArrowDown from -1 gives 0, which lies outside the list |
| `Home.TypeTicker` | src/pages/Home.jsx:90 | the ticker is the typed text upper-cased, character by character; nothing else changes |
| `Home.KeyDown` | src/pages/Home.jsx:31-51 | arrows change only the highlight and do nothing while the list is hidden; Enter fails exactly when the highlight is at or past the end of the list; otherwise Enter commits the highlighted suggestion (if any), clears and hides the list, and keeps the highlight |
| `Home.ClickSuggestion` | src/pages/Home.jsx:25-29 | a click sets the ticker to the clicked symbol, then clears and hides the list |
| `Home.TickerEffect` | src/pages/Home.jsx:53-65 | a non-empty ticker shows its suggestions with the highlight reset to -1; an empty ticker clears and hides the list |
| `Home.Settle` | src/pages/Home.jsx:65 | the `[ticker]` effect runs after a handler exactly when the handler changed the ticker |
| `Home.Dispatch` | src/pages/Home.jsx:90-91 | one user action followed by the effect: only Enter can fail; typing sets the ticker to the upper-cased text and a click (line 102) sets it to the clicked symbol |
| `Home.Run` | src/pages/Home.jsx:90-102 | an empty run leaves the state as it is; a run whose first action fails ends with that fault |
| `Home.RunStep` | src/pages/Home.jsx:90-102 | a run continues from the state its first action leaves, and stops with the fault of a first action that fails, whatever follows |
| `Home.RunWithoutEnterSucceeds` | src/pages/Home.jsx:31-51 | a run with no Enter press never fails |
| `Home.InitialWf` | src/pages/Home.jsx:8-12 | the initial state satisfies the state-machine invariant |
| `Home.KeyDownPreservesWf` | src/pages/Home.jsx:31-51 | every key press that does not fail keeps the invariant |
| `Home.DispatchPreservesWf` | src/pages/Home.jsx:25-65 | every action that does not fail keeps the invariant: a shown list holds the current ticker's suggestions and the highlight is within one step of the list; a hidden list is empty |
| `Home.ArrowKeysStayInRange` | src/pages/Home.jsx:32-41 | with a non-empty list shown, both arrow keys leave the highlight inside the list |
| `Home.EnterSafeOnShownList` | src/pages/Home.jsx:42-50 | with a non-empty list shown, Enter never fails |
| `Home.ClickReopensList` | src/pages/Home.jsx:25-65 | clicking a suggestion other than the typed ticker runs the effect, which reopens the list filtered by the clicked symbol with nothing highlighted |
| `Home.FirstSuggestionHeadsOwn` | src/pages/Home.jsx:53-58 | the first suggestion for a ticker is also the first suggestion for itself |
| `Home.AnyNewTickerCanFault` | src/pages/Home.jsx:42-50 | typing any new non-empty ticker, then ArrowDown, Enter, ArrowDown, Enter, Enter, makes Enter read past the end of the list |
| `Home.EmptyShownListFaults` | src/pages/Home.jsx:32-50 | with an empty list shown, ArrowDown then Enter reads past the end of the list |
| `Home.KeyDownChecked` | src/pages/Home.jsx:42-50 | the corrected Enter commits a highlight inside the list and, with the highlight outside the list, only clears and hides the list; the new ticker is either the old one or one of the suggestions; other keys never fail; it agrees with the original handler whenever that one does not fail |
| `Home.DispatchChecked` | src/pages/Home.jsx:25-65 | the corrected machine never fails and agrees with the original one whenever that one does not fail; on the Enter the original faults on, it keeps the ticker and only clears and hides the list |
| `Home.RunCheckedAgrees` | src/pages/Home.jsx:25-65 | over any sequence of actions, the corrected machine keeps the invariant and agrees with the original one on every run that does not fail |

## Left out

- Network calls: the quote request in `fetchStockData` is replaced by its result, which is an input.
- Browser storage is an abstract optional list. The model assumes `JSON.stringify` and `JSON.parse` give back the same list. Malformed stored content makes `JSON.parse` throw, with no recovery; it is not modelled.
- Asynchrony. `BeginSearch` and `CompleteFetch` are the two halves of a search, but `Watchlist.Step` applies a whole search at once. Interleaving other actions with a search in flight is not modelled, and neither are replies that arrive out of order.
- Animation and rendering: GSAP, Lenis, recharts drawing and the "Market Closed" and price labels. They only draw the state.
- `handleSubmit` (src/pages/Home.jsx:19-23): it hides the suggestion list without clearing it, then `navigate` leaves the page, which unmounts it; no later state of this page follows, so the invariant is not at stake.
- The future-date input (src/pages/Home.jsx:121-126): it only stores the chosen date, which nothing on this page reads except `handleSubmit`.
- src/pages/ImmersiveParallax.jsx, src/pages/prediction.jsx, src/pages/LandingPage.jsx, src/components/Login.jsx, src/components/Profile.jsx, src/components/Navbar.jsx, src/App.jsx and vite.config.js: scroll animation, floating-point display, HTTP forms and routing.
- Text.Upper: maps only the ASCII letters a-z. JavaScript's `toUpperCase` uses full Unicode case mapping and can change the length of a string (for example `ß` becomes `SS`).
- Watchlist.Price: prices are mathematical reals, not IEEE doubles. The code never computes with them, and `NaN` is not modelled.

## Findings

| source | as written | input that shows it | evidently intended | confidence | as-written member | corrected member |
|---|---|---|---|---|---|---|
| src/pages/Home.jsx:44-45 | Enter checks only `highlightedIndex >= 0` before reading `suggestions[highlightedIndex]`. The index can be past the end: the list is emptied on Enter but the highlight is kept, and ArrowDown on an empty shown list moves it to 0. The ticker then becomes `undefined`, and the `[ticker]` effect throws reading its `length`. | type AAPL, then ArrowDown, Enter, ArrowDown, Enter, Enter (more generally, any new non-empty ticker followed by those five keys) | commit only when `0 <= highlightedIndex < suggestions.length` | high; not executed | `Home.AnyNewTickerCanFault` | `Home.KeyDownChecked` |
| src/components/Watchlist.jsx:37 | the save effect skips an empty list, so removing the last stock never reaches storage | track one stock, remove it, reload the page: the stock is back | write the list on every change after the initial load | medium; not executed | `Watchlist.RemoveLastIsNotPersisted` | `Watchlist.RemoveWriteThrough` |

=== FILE: home.dfy ===
/**
 * The ticker box of the prediction home page: an autocomplete over a fixed
 * list of symbols, with a keyboard highlight that wraps at both ends.
 *
 * The key, click and input handlers are transitions on `HomeState`; the
 * effect that recomputes the suggestions is a separate step that React runs
 * only when the ticker actually changed (`Settle`).
 */
module Home {
  import opened Wrappers
  import opened Text
  import opened Seqs

  /** The symbols the autocomplete offers, in display order. */
  const StockList: seq<string> := [
    "AAPL", "GOOG", "AMZN", "TSLA", "MSFT", "NFLX", "META", "BABA", "NVDA", "SPY",
    "T", "TSM", "TWTR", "TXN", "TCEHY", "TLRY", "V", "UBER", "WMT", "BA", "GE", "INTC", "IRCTC.NS"
  ]

  /** The component state of the ticker box. */
  datatype HomeState = HomeState(
    ticker: string,
    suggestions: seq<string>,
    showSuggestions: bool,
    highlightedIndex: int)

  /** The page before any input. */
  const Initial: HomeState := HomeState("", [], false, -1)

  // ---------------------------------------------------------------------------
  // Suggestions

  /** The suggestion filter: the symbol starts with the ticker, ignoring case. */
  function MatchesTicker(ticker: string): string -> bool {
    (stock: string) => StartsWith(Upper(stock), Upper(ticker))
  }

  /** The suggestion effect's `filter` over `list`, one symbol at a time. */
  function FilterByTicker(list: seq<string>, ticker: string): seq<string> {
    if list == [] then []
    else
      (if StartsWith(Upper(list[0]), Upper(ticker)) then [list[0]] else [])
      + FilterByTicker(list[1..], ticker)
  }

  /** The suggestions for a ticker. */
  function Suggestions(ticker: string): seq<string> {
    FilterByTicker(StockList, ticker)
  }

  /** The per-symbol filter is the generic `filter` with the ticker predicate. */
  lemma {:induction false} FilterByTickerIsFilter(list: seq<string>, ticker: string)
    ensures FilterByTicker(list, ticker) == Filter(list, MatchesTicker(ticker))
  {
    if list != [] {
      FilterByTickerIsFilter(list[1..], ticker);
    }
  }

  /**
   * The suggestions for a ticker are exactly the listed symbols that start
   * with it, ignoring case, in list order.
   */
  lemma SuggestionsSpec(ticker: string)
    ensures IsSubsequence(Suggestions(ticker), StockList)
    ensures forall i :: 0 <= i < |Suggestions(ticker)| ==>
              StartsWith(Upper(Suggestions(ticker)[i]), Upper(ticker))
    ensures forall i :: 0 <= i < |StockList| && StartsWith(Upper(StockList[i]), Upper(ticker))
              ==> StockList[i] in Suggestions(ticker)
    ensures |Suggestions(ticker)| == CountWhere(StockList, MatchesTicker(ticker))
  {
    FilterByTickerIsFilter(StockList, ticker);
    var r := Filter(StockList, MatchesTicker(ticker));
    assert forall i :: 0 <= i < |r| ==> MatchesTicker(ticker)(r[i]);
    assert forall i :: 0 <= i < |StockList| && StartsWith(Upper(StockList[i]), Upper(ticker))
             ==> MatchesTicker(ticker)(StockList[i]);
  }

  /** A symbol is suggested exactly when it is listed and matches the ticker. */
  lemma SuggestionsExact(ticker: string, stock: string)
    ensures stock in Suggestions(ticker) <==> stock in StockList && StartsWith(Upper(stock), Upper(ticker))
  {
    FilterByTickerIsFilter(StockList, ticker);
    FilterMembership(StockList, MatchesTicker(ticker), stock);
  }

  /** Matching ignores case: a ticker and its upper-cased form get the same suggestions. */
  lemma SuggestionsIgnoreCase(ticker: string)
    ensures Suggestions(Upper(ticker)) == Suggestions(ticker)
  {
    UpperIdempotent(ticker);
    FilterByTickerIsFilter(StockList, ticker);
    FilterByTickerIsFilter(StockList, Upper(ticker));
    FilterCongruent(StockList, MatchesTicker(Upper(ticker)), MatchesTicker(ticker));
  }

  // ---------------------------------------------------------------------------
  // The keyboard highlight

  /** ArrowDown: the next index, wrapping to the first after the last. */
  function NextIndex(prev: int, len: nat): (r: int)
    ensures len > 0 && -1 <= prev < len ==> 0 <= r < len && r == (prev + 1) % len
    ensures prev < len - 1 ==> r == prev + 1
    ensures prev >= len - 1 ==> r == 0
  {
    if prev < len - 1 then prev + 1 else 0
  }

  /** ArrowUp: the previous index, wrapping to the last from the first or from none. */
  function PrevIndex(prev: int, len: nat): (r: int)
    ensures len > 0 && 0 <= prev < len ==> 0 <= r < len && r == (prev - 1 + len) % len
    ensures prev <= 0 ==> r == len - 1
    ensures prev > 0 ==> r == prev - 1
  {
    if prev > 0 then prev - 1 else len - 1
  }

  /** ArrowUp undoes ArrowDown and vice versa on an index inside the list. */
  lemma ArrowKeysInverse(h: int, len: nat)
    requires 0 <= h < len
    ensures PrevIndex(NextIndex(h, len), len) == h
    ensures NextIndex(PrevIndex(h, len), len) == h
  {
  }

  /** `k` presses of ArrowDown. */
  function PressDown(h: int, len: nat, k: nat): int
    decreases k
  {
    if k == 0 then h else PressDown(NextIndex(h, len), len, k - 1)
  }

  /** Before the last index, each ArrowDown moves one place down. */
  lemma {:induction false} PressDownWithinList(h: int, len: nat, k: nat)
    requires -1 <= h && h + k < len
    ensures PressDown(h, len, k) == h + k
    decreases k
  {
    if k > 0 {
      PressDownWithinList(h + 1, len, k - 1);
    }
  }

  /** Pressing `a` times and then `b` times is pressing `a + b` times. */
  lemma {:induction false} PressDownAdds(h: int, len: nat, a: nat, b: nat)
    ensures PressDown(PressDown(h, len, a), len, b) == PressDown(h, len, a + b)
    decreases a
  {
    if a > 0 {
      PressDownAdds(NextIndex(h, len), len, a - 1, b);
    }
  }

  /** `len` presses of ArrowDown go once round the list and back to the same index. */
  lemma PressDownFullCycle(h: int, len: nat)
    requires 0 <= h < len
    ensures PressDown(h, len, len) == h
  {
    var toLast := len - 1 - h;
    PressDownWithinList(h, len, toLast);
    PressDownAdds(h, len, toLast, 1);
    assert PressDown(h, len, toLast + 1) == 0;
    assert PressDown(0, len, h) == h by {
      PressDownWithinList(0, len, h);
    }
    PressDownAdds(h, len, toLast + 1, h);
  }

  /** The empty-list edge: ArrowDown from no highlight lands on index 0, outside the list. */
  lemma EmptyListArrowDownLeavesRange()
    ensures NextIndex(-1, 0) == 0
    ensures PrevIndex(NextIndex(-1, 0), 0) == -1
  {
  }

  // ---------------------------------------------------------------------------
  // Handlers and the ticker effect

  datatype Key = ArrowDown | ArrowUp | Enter | OtherKey

  /**
   * Enter on a highlight past the end of the list reads `undefined` and
   * stores it as the ticker; the ticker effect then fails reading its length.
   */
  datatype Fault = TickerUndefined

  /** The ticker input's `onChange`: the typed text, upper-cased. */
  function TypeTicker(s: HomeState, text: string): (r: HomeState)
    ensures NoLower(r.ticker) && |r.ticker| == |text|
    ensures forall i :: 0 <= i < |text| ==> r.ticker[i] == UpperChar(text[i])
    ensures r.(ticker := s.ticker) == s
  {
    s.(ticker := Upper(text))
  }

  /** `handleKeyDown`. */
  function KeyDown(s: HomeState, key: Key): (r: Result<HomeState, Fault>)
    ensures key.ArrowDown? || key.ArrowUp? ==> r.Success?
    ensures (key.ArrowDown? || key.ArrowUp?) && !s.showSuggestions ==> r == Success(s)
    ensures key.ArrowDown? && s.showSuggestions ==>
              r.value == s.(highlightedIndex := NextIndex(s.highlightedIndex, |s.suggestions|))
    ensures key.ArrowUp? && s.showSuggestions ==>
              r.value == s.(highlightedIndex := PrevIndex(s.highlightedIndex, |s.suggestions|))
    ensures key.Enter? ==> (r.Failure? <==> 0 <= s.highlightedIndex && |s.suggestions| <= s.highlightedIndex)
    ensures key.Enter? && r.Success? ==>
              && r.value.suggestions == [] && !r.value.showSuggestions
              && r.value.highlightedIndex == s.highlightedIndex
              && r.value.ticker == (if s.highlightedIndex >= 0 then s.suggestions[s.highlightedIndex] else s.ticker)
    ensures key.OtherKey? ==> r == Success(s)
  {
    match key
    case ArrowDown =>
      if s.showSuggestions
      then Success(s.(highlightedIndex := NextIndex(s.highlightedIndex, |s.suggestions|)))
      else Success(s)
    case ArrowUp =>
      if s.showSuggestions
      then Success(s.(highlightedIndex := PrevIndex(s.highlightedIndex, |s.suggestions|)))
      else Success(s)
    case Enter =>
      if s.highlightedIndex >= 0 then
        match At(s.suggestions, s.highlightedIndex)
        case Some(selected) => Success(s.(ticker := selected, suggestions := [], showSuggestions := false))
        case None => Failure(TickerUndefined)
      else Success(s.(suggestions := [], showSuggestions := false))
    case OtherKey => Success(s)
  }

  /** `handleSuggestionClick`: commits the clicked symbol and closes the list. */
  function ClickSuggestion(s: HomeState, suggestion: string): (r: HomeState)
    ensures r.ticker == suggestion && r.suggestions == [] && !r.showSuggestions
    ensures r.highlightedIndex == s.highlightedIndex
  {
    s.(ticker := suggestion, suggestions := [], showSuggestions := false)
  }

  /**
   * The effect on `[ticker]`: a non-empty ticker shows its suggestions with
   * nothing highlighted; an empty one clears and hides the list.
   */
  function TickerEffect(s: HomeState): (r: HomeState)
    ensures r.ticker == s.ticker
    ensures |s.ticker| > 0 ==> r.showSuggestions && r.suggestions == Suggestions(s.ticker) && r.highlightedIndex == -1
    ensures |s.ticker| == 0 ==> !r.showSuggestions && r.suggestions == [] && r.highlightedIndex == s.highlightedIndex
  {
    if |s.ticker| > 0 then
      s.(suggestions := Suggestions(s.ticker), showSuggestions := true, highlightedIndex := -1)
    else
      s.(suggestions := [], showSuggestions := false)
  }

  /** After a handler, the effect runs only if the ticker changed. */
  function Settle(before: HomeState, after: HomeState): (r: HomeState)
    ensures after.ticker == before.ticker ==> r == after
    ensures after.ticker != before.ticker ==> r == TickerEffect(after)
  {
    if after.ticker != before.ticker then TickerEffect(after) else after
  }

  /**
   * User actions on the ticker box. The page renders clickable suggestions
   * only for a shown, non-empty list; `Clicked` accepts any string in any
   * state, a superset of what the page allows, so every property proved over
   * all events holds for the page's own events too.
   */
  datatype Event = Typed(text: string) | Pressed(key: Key) | Clicked(suggestion: string)

  /** One user action, followed by the ticker effect when it applies. */
  function Dispatch(s: HomeState, e: Event): (r: Result<HomeState, Fault>)
    ensures r.Failure? ==> e == Pressed(Enter)
    ensures e.Typed? ==> r.Success? && r.value.ticker == Upper(e.text)
    ensures e.Clicked? ==> r.Success? && r.value.ticker == e.suggestion
  {
    match e
    case Typed(text) => Success(Settle(s, TypeTicker(s, text)))
    case Pressed(key) =>
      (match KeyDown(s, key)
       case Success(next) => Success(Settle(s, next))
       case Failure(f) => Failure(f))
    case Clicked(suggestion) => Success(Settle(s, ClickSuggestion(s, suggestion)))
  }

  /** A sequence of user actions; the first fault ends the run. */
  function Run(s: HomeState, events: seq<Event>): (r: Result<HomeState, Fault>)
    ensures events == [] ==> r == Success(s)
    ensures events != [] && Dispatch(s, events[0]).Failure? ==> r == Failure(Dispatch(s, events[0]).error)
    decreases |events|
  {
    if events == [] then Success(s)
    else
      match Dispatch(s, events[0])
      case Success(next) => Run(next, events[1..])
      case Failure(f) => Failure(f)
  }

  /** Only Enter can fault: a run without Enter always succeeds. */
  lemma {:induction false} RunWithoutEnterSucceeds(s: HomeState, events: seq<Event>)
    requires forall i :: 0 <= i < |events| ==> events[i] != Pressed(Enter)
    ensures Run(s, events).Success?
    decreases |events|
  {
    if events != [] {
      var next := Dispatch(s, events[0]).value;
      RunWithoutEnterSucceeds(next, events[1..]);
    }
  }

  // ---------------------------------------------------------------------------
  // Properties of the state machine

  /** The largest highlight the arrow keys can reach on a list of length `len`. */
  function MaxHighlight(len: nat): int {
    if len == 0 then 0 else len - 1
  }

  /**
   * What every reachable state satisfies: a shown list holds the suggestions
   * for the current non-empty ticker, with the highlight at most one step
   * outside it; a hidden list is empty.
   */
  predicate Wf(s: HomeState) {
    && (s.showSuggestions ==>
          && |s.ticker| > 0
          && s.suggestions == Suggestions(s.ticker)
          && -1 <= s.highlightedIndex <= MaxHighlight(|s.suggestions|))
    && (!s.showSuggestions ==> s.suggestions == [])
  }

  lemma InitialWf()
    ensures Wf(Initial)
  {
  }

  /** The ticker effect always leaves a well-formed state. */
  lemma TickerEffectWf(s: HomeState)
    ensures Wf(TickerEffect(s))
  {
  }

  /** A handler result that is well-formed, or whose ticker changed, settles well-formed. */
  lemma SettleWf(before: HomeState, after: HomeState)
    requires after.ticker != before.ticker || Wf(after)
    ensures Wf(Settle(before, after))
  {
    if after.ticker != before.ticker {
      TickerEffectWf(after);
    }
  }

  /** Every key press that does not fault keeps the state well-formed. */
  lemma KeyDownPreservesWf(s: HomeState, key: Key)
    requires Wf(s)
    ensures KeyDown(s, key).Success? ==> Wf(KeyDown(s, key).value)
  {
  }

  /** Every action that does not fault keeps the state well-formed. */
  lemma DispatchPreservesWf(s: HomeState, e: Event)
    requires Wf(s)
    ensures Dispatch(s, e).Success? ==> Wf(Dispatch(s, e).value)
  {
    match e
    case Typed(text) =>
      SettleWf(s, TypeTicker(s, text));
    case Pressed(key) =>
      KeyDownPreservesWf(s, key);
      if KeyDown(s, key).Success? {
        SettleWf(s, KeyDown(s, key).value);
      }
    case Clicked(suggestion) =>
      SettleWf(s, ClickSuggestion(s, suggestion));
  }

  /** With a non-empty list shown, the arrow keys keep the highlight inside it. */
  lemma ArrowKeysStayInRange(s: HomeState, key: Key)
    requires Wf(s) && s.showSuggestions && |s.suggestions| > 0
    requires key.ArrowDown? || key.ArrowUp?
    ensures var h := KeyDown(s, key).value.highlightedIndex;
            0 <= h < |s.suggestions|
  {
  }

  /** With a non-empty list shown, Enter never faults. */
  lemma EnterSafeOnShownList(s: HomeState)
    requires Wf(s) && s.showSuggestions && |s.suggestions| > 0
    ensures Dispatch(s, Pressed(Enter)).Success?
  {
  }

  /**
   * Committing a suggestion that differs from the typed ticker changes the
   * ticker, so the effect runs and the list reopens, filtered by the
   * committed symbol, with nothing highlighted.
   */
  lemma ClickReopensList(s: HomeState, suggestion: string)
    requires suggestion != s.ticker && |suggestion| > 0
    ensures var r := Dispatch(s, Clicked(suggestion)).value;
            r.ticker == suggestion && r.showSuggestions
            && r.suggestions == Suggestions(suggestion) && r.highlightedIndex == -1
  {
  }

  /** A run whose first action succeeds continues from the state it reaches. */
  lemma RunStep(s: HomeState, e: Event, rest: seq<Event>)
    ensures Dispatch(s, e).Success? ==> Run(s, [e] + rest) == Run(Dispatch(s, e).value, rest)
    ensures Dispatch(s, e).Failure? ==> Run(s, [e] + rest) == Failure(Dispatch(s, e).error)
  {
    assert ([e] + rest)[1..] == rest;
  }

  /** The filter yields the first matching symbol of the list first. */
  lemma {:induction false} FilterHead(list: seq<string>, ticker: string, i: nat)
    requires i < |list| && StartsWith(Upper(list[i]), Upper(ticker))
    requires forall j :: 0 <= j < i ==> !StartsWith(Upper(list[j]), Upper(ticker))
    ensures FilterByTicker(list, ticker) != [] && FilterByTicker(list, ticker)[0] == list[i]
    decreases i
  {
    if i > 0 {
      FilterHead(list[1..], ticker, i - 1);
    }
  }

  /** A non-empty filter result starts with the first matching symbol; returns its index. */
  lemma {:induction false} FilterHeadIndex(list: seq<string>, ticker: string) returns (i: nat)
    requires FilterByTicker(list, ticker) != []
    ensures i < |list| && list[i] == FilterByTicker(list, ticker)[0]
    ensures StartsWith(Upper(list[i]), Upper(ticker))
    ensures forall j :: 0 <= j < i ==> !StartsWith(Upper(list[j]), Upper(ticker))
  {
    if StartsWith(Upper(list[0]), Upper(ticker)) {
      i := 0;
    } else {
      var k := FilterHeadIndex(list[1..], ticker);
      i := k + 1;
    }
  }

  /**
   * The first suggestion for a ticker heads its own suggestions: every
   * symbol listed before it fails the longer prefix too.
   */
  lemma FirstSuggestionHeadsOwn(ticker: string)
    requires Suggestions(ticker) != []
    ensures var x := Suggestions(ticker)[0];
            Suggestions(x) != [] && Suggestions(x)[0] == x && |x| >= |ticker|
  {
    var i := FilterHeadIndex(StockList, ticker);
    var x := StockList[i];
    assert forall j :: 0 <= j < i ==> !StartsWith(Upper(StockList[j]), Upper(x));
    FilterHead(StockList, x, i);
  }

  /**
   * Typing any new non-empty ticker and then pressing ArrowDown, Enter,
   * ArrowDown, Enter, Enter faults. With no suggestions, the first Enter
   * reads past the empty list. Otherwise Enter commits the first suggestion
   * (at most once changing the ticker and reopening the list), the last
   * commit leaves the ticker as it was, so the effect does not run and the
   * closed, empty list keeps highlight 0 -- and the final Enter reads past it.
   */
  lemma AnyNewTickerCanFault(s: HomeState, text: string)
    requires |text| > 0 && Upper(text) != s.ticker
    ensures Run(s, [Typed(text), Pressed(ArrowDown), Pressed(Enter),
                    Pressed(ArrowDown), Pressed(Enter), Pressed(Enter)]) == Failure(TickerUndefined)
  {
    var t := Upper(text);
    var down, enter := Pressed(ArrowDown), Pressed(Enter);
    var s1 := HomeState(t, Suggestions(t), true, -1);
    var s2 := s1.(highlightedIndex := 0);
    assert Dispatch(s, Typed(text)) == Success(s1);
    assert Dispatch(s1, down) == Success(s2);
    RunStep(s, Typed(text), [down, enter, down, enter, enter]);
    RunStep(s1, down, [enter, down, enter, enter]);
    RunStep(s2, enter, [down, enter, enter]);
    if Suggestions(t) != [] {
      var x := Suggestions(t)[0];
      FirstSuggestionHeadsOwn(t);
      if x == t {
        var s3 := HomeState(t, [], false, 0);
        assert Dispatch(s2, enter) == Success(s3);
        assert Dispatch(s3, down) == Success(s3);
        RunStep(s3, down, [enter, enter]);
        RunStep(s3, enter, [enter]);
      } else {
        var s3 := HomeState(x, Suggestions(x), true, -1);
        var s4 := s3.(highlightedIndex := 0);
        var s5 := HomeState(x, [], false, 0);
        assert Dispatch(s2, enter) == Success(s3);
        assert Dispatch(s3, down) == Success(s4);
        assert Dispatch(s4, enter) == Success(s5);
        RunStep(s3, down, [enter, enter]);
        RunStep(s4, enter, [enter]);
        RunStep(s5, enter, []);
      }
    }
  }

  /**
   * A shown but empty list (a ticker no symbol starts with): ArrowDown
   * highlights index 0, and Enter then reads past the end.
   */
  lemma EmptyShownListFaults(s: HomeState)
    requires s.showSuggestions && s.suggestions == [] && s.highlightedIndex == -1
    ensures Run(s, [Pressed(ArrowDown), Pressed(Enter)]) == Failure(TickerUndefined)
  {
    var s1 := s.(highlightedIndex := 0);
    assert Dispatch(s, Pressed(ArrowDown)) == Success(s1);
    RunStep(s, Pressed(ArrowDown), [Pressed(Enter)]);
    RunStep(s1, Pressed(Enter), []);
  }

  // ---------------------------------------------------------------------------
  // Enter with a bounds check: commits only a highlight inside the list

  /** `handleKeyDown` with Enter committing only a highlighted index inside the list. */
  function KeyDownChecked(s: HomeState, key: Key): (r: HomeState)
    ensures key.Enter? ==> r.suggestions == [] && !r.showSuggestions
    ensures key.Enter? ==> r.ticker == s.ticker || r.ticker in s.suggestions
    ensures key.Enter? && 0 <= s.highlightedIndex < |s.suggestions| ==>
              r.ticker == s.suggestions[s.highlightedIndex]
    ensures key.Enter? && !(0 <= s.highlightedIndex < |s.suggestions|) ==>
              r == s.(suggestions := [], showSuggestions := false)
    ensures !key.Enter? ==> KeyDown(s, key).Success?
    ensures KeyDown(s, key).Success? ==> r == KeyDown(s, key).value
  {
    match key
    case Enter =>
      if 0 <= s.highlightedIndex < |s.suggestions| then
        s.(ticker := s.suggestions[s.highlightedIndex], suggestions := [], showSuggestions := false)
      else
        s.(suggestions := [], showSuggestions := false)
    case _ => KeyDown(s, key).value
  }

  /** One user action with the bounds-checked Enter; it never faults. */
  function DispatchChecked(s: HomeState, e: Event): (r: HomeState)
    ensures Dispatch(s, e).Success? ==> r == Dispatch(s, e).value
    ensures Dispatch(s, e).Failure? ==> r == s.(suggestions := [], showSuggestions := false)
  {
    match e
    case Pressed(key) => Settle(s, KeyDownChecked(s, key))
    case _ => Dispatch(s, e).value
  }

  /** A sequence of user actions with the bounds-checked Enter. */
  function RunChecked(s: HomeState, events: seq<Event>): HomeState
    decreases |events|
  {
    if events == [] then s else RunChecked(DispatchChecked(s, events[0]), events[1..])
  }

  /**
   * The checked machine agrees with the page on every run that does not
   * fault, and keeps every state well-formed.
   */
  lemma {:induction false} RunCheckedAgrees(s: HomeState, events: seq<Event>)
    requires Wf(s)
    ensures Run(s, events).Success? ==> RunChecked(s, events) == Run(s, events).value
    ensures Wf(RunChecked(s, events))
    decreases |events|
  {
    if events != [] {
      var e := events[0];
      var n := DispatchChecked(s, e);
      assert Wf(n) by {
        match e
        case Pressed(key) =>
          KeyDownPreservesWf(s, key);
          SettleWf(s, KeyDownChecked(s, key));
        case _ =>
          DispatchPreservesWf(s, e);
      }
      RunCheckedAgrees(n, events[1..]);
    }
  }
}

=== FILE: seqs.dfy ===
/**
 * JavaScript array primitives the user interface relies on, over Dafny
 * sequences: `slice(start)`, `a[i]` (which yields `undefined` out of range)
 * and `filter`.
 */
module Seqs {
  import opened Wrappers

  /** `xs.slice(start)`: a negative start counts from the end; both clamp to the array. */
  function Slice<T>(xs: seq<T>, start: int): (r: seq<T>)
    ensures |r| <= |xs| && r == xs[|xs| - |r|..]
    ensures 0 <= start <= |xs| ==> |r| == |xs| - start
    ensures start < 0 && -start <= |xs| ==> |r| == -start
  {
    var from := if start < 0 then (if |xs| + start < 0 then 0 else |xs| + start)
                else (if start > |xs| then |xs| else start);
    xs[from..]
  }

  /** The last `min(n, |xs|)` elements of `xs`. */
  ghost predicate IsLastN<T>(r: seq<T>, xs: seq<T>, n: nat) {
    && |r| == (if |xs| < n then |xs| else n)
    && forall i :: 0 <= i < |r| ==> r[i] == xs[|xs| - |r| + i]
  }

  /**
   * `xs.slice(-n)` keeps exactly the last `min(n, |xs|)` elements, in
   * order, so it ends with the last element of `xs`.
   */
  lemma SliceNegativeIsLastN<T>(xs: seq<T>, n: nat)
    requires n > 0
    ensures IsLastN(Slice(xs, -(n as int)), xs, n)
    ensures |Slice(xs, -(n as int))| <= n
    ensures xs != [] ==> Slice(xs, -(n as int)) != []
                         && Slice(xs, -(n as int))[|Slice(xs, -(n as int))| - 1] == xs[|xs| - 1]
  {
    var r := Slice(xs, -(n as int));
    assert r == xs[|xs| - |r|..];
  }

  /** `xs[i]`: the element at `i`, or `undefined` when `i` is out of range. */
  function At<T>(xs: seq<T>, i: int): (r: Option<T>)
    ensures r.Some? <==> 0 <= i < |xs|
    ensures r.Some? ==> r.value == xs[i]
  {
    if 0 <= i < |xs| then Some(xs[i]) else None
  }

  /** `a` occurs in `b` in the same relative order, possibly with gaps. */
  ghost predicate IsSubsequence<T>(a: seq<T>, b: seq<T>)
    decreases |b|
  {
    if a == [] then true
    else if b == [] then false
    else if a[0] == b[0] then IsSubsequence(a[1..], b[1..])
    else IsSubsequence(a, b[1..])
  }

  /** Number of elements of `xs` that satisfy `p`. */
  function CountWhere<T>(xs: seq<T>, p: T -> bool): (n: nat)
    ensures n <= |xs|
  {
    if xs == [] then 0 else (if p(xs[0]) then 1 else 0) + CountWhere(xs[1..], p)
  }

  /**
   * `xs.filter(p)`: a subsequence of `xs` made only of elements satisfying
   * `p`, as long as the number of such elements in `xs` -- hence every one
   * of them, in their original order.
   */
  function Filter<T>(xs: seq<T>, p: T -> bool): (r: seq<T>)
    ensures IsSubsequence(r, xs)
    ensures |r| == CountWhere(xs, p)
    ensures forall i :: 0 <= i < |r| ==> p(r[i])
    ensures forall i :: 0 <= i < |xs| && p(xs[i]) ==> xs[i] in r
  {
    if xs == [] then []
    else
      var rest := Filter(xs[1..], p);
      assert forall i :: 1 <= i < |xs| ==> xs[i] == xs[1..][i - 1];
      if p(xs[0]) then [xs[0]] + rest
      else
        SubsequenceSkip(rest, xs[0], xs[1..]);
        rest
  }

  /** Prepending an element to the larger sequence keeps a subsequence a subsequence. */
  lemma {:induction false} SubsequenceSkip<T>(a: seq<T>, x: T, b: seq<T>)
    requires IsSubsequence(a, b)
    ensures IsSubsequence(a, [x] + b)
    decreases |b|, 1
  {
    if a != [] && a[0] == x {
      assert ([x] + b)[1..] == b;
      // `a[1..]` is a subsequence of `b` because `a` is
      SubsequenceTail(a, b);
    }
  }

  /** Dropping the first element of a subsequence keeps it a subsequence. */
  lemma {:induction false} SubsequenceTail<T>(a: seq<T>, b: seq<T>)
    requires a != [] && IsSubsequence(a, b)
    ensures IsSubsequence(a[1..], b)
    decreases |b|, 0
  {
    if a[0] == b[0] {
      SubsequenceSkip(a[1..], b[0], b[1..]);
      assert [b[0]] + b[1..] == b;
    } else {
      SubsequenceTail(a, b[1..]);
      SubsequenceSkip(a[1..], b[0], b[1..]);
      assert [b[0]] + b[1..] == b;
    }
  }

  /** Every element of a subsequence occurs in the larger sequence. */
  lemma {:induction false} SubsequenceMembers<T>(a: seq<T>, b: seq<T>)
    requires IsSubsequence(a, b)
    ensures forall i :: 0 <= i < |a| ==> a[i] in b
    decreases |b|
  {
    if a != [] {
      if a[0] == b[0] {
        SubsequenceMembers(a[1..], b[1..]);
        assert forall i :: 1 <= i < |a| ==> a[i] == a[1..][i - 1];
      } else {
        SubsequenceMembers(a, b[1..]);
      }
    }
  }

  /** Filtering keeps exactly the elements that satisfy the predicate. */
  lemma FilterMembership<T>(xs: seq<T>, p: T -> bool, x: T)
    ensures x in Filter(xs, p) <==> x in xs && p(x)
  {
    var r := Filter(xs, p);
    SubsequenceMembers(r, xs);
  }

  /** Filtering with a predicate every element satisfies changes nothing. */
  lemma {:induction false} FilterAll<T>(xs: seq<T>, p: T -> bool)
    requires forall i :: 0 <= i < |xs| ==> p(xs[i])
    ensures Filter(xs, p) == xs
  {
    if xs != [] {
      assert forall i :: 0 <= i < |xs[1..]| ==> xs[1..][i] == xs[i + 1];
      FilterAll(xs[1..], p);
      assert [xs[0]] + xs[1..] == xs;
    }
  }

  /** Filtering distributes over concatenation. */
  lemma {:induction false} FilterConcat<T>(a: seq<T>, b: seq<T>, p: T -> bool)
    ensures Filter(a + b, p) == Filter(a, p) + Filter(b, p)
  {
    if a != [] {
      assert (a + b)[1..] == a[1..] + b;
      FilterConcat(a[1..], b, p);
    } else {
      assert a + b == b;
    }
  }

  /** Filtering with two predicates that agree on every element gives the same result. */
  lemma {:induction false} FilterCongruent<T>(xs: seq<T>, p: T -> bool, q: T -> bool)
    requires forall i :: 0 <= i < |xs| ==> p(xs[i]) == q(xs[i])
    ensures Filter(xs, p) == Filter(xs, q)
  {
    if xs != [] {
      assert forall i :: 0 <= i < |xs[1..]| ==> xs[1..][i] == xs[i + 1];
      FilterCongruent(xs[1..], p, q);
    }
  }
}

=== FILE: text.dfy ===
/**
 * The few JavaScript string operations the user interface relies on:
 * `String.prototype.toUpperCase`, `trim` and `startsWith`.
 */
module Text {

  /** Lower-case ASCII letter. */
  predicate IsLower(c: char) {
    'a' <= c <= 'z'
  }

  /** Upper-cases one character; only the ASCII letters are mapped. */
  function UpperChar(c: char): (u: char)
    ensures !IsLower(u)
    ensures IsLower(c) ==> u as int == c as int - 32
    ensures !IsLower(c) ==> u == c
  {
    if IsLower(c) then (c as int - 32) as char else c
  }

  /** True when no character of `s` is a lower-case ASCII letter. */
  predicate NoLower(s: string) {
    forall i :: 0 <= i < |s| ==> !IsLower(s[i])
  }

  /** `s.toUpperCase()`: same length, same letters, none of them lower-case. */
  function Upper(s: string): (r: string)
    ensures |r| == |s|
    ensures NoLower(r)
    ensures forall i :: 0 <= i < |s| ==> r[i] == UpperChar(s[i])
  {
    seq(|s|, i requires 0 <= i < |s| => UpperChar(s[i]))
  }

  /** Upper-casing changes nothing in a string that has no lower-case letter. */
  lemma UpperFixesNoLower(s: string)
    requires NoLower(s)
    ensures Upper(s) == s
  {
  }

  /** Upper-casing twice is upper-casing once. */
  lemma UpperIdempotent(s: string)
    ensures Upper(Upper(s)) == Upper(s)
  {
    UpperFixesNoLower(Upper(s));
  }

  /**
   * The characters `trim` removes: the ECMAScript WhiteSpace and
   * LineTerminator code points.
   */
  predicate IsWhitespace(c: char) {
    || c == '\t' || c == '\n' || c == '\U{000B}' || c == '\U{000C}' || c == '\r'
    || c == ' ' || c == '\U{00A0}' || c == '\U{1680}'
    || ('\U{2000}' <= c <= '\U{200A}')
    || c == '\U{2028}' || c == '\U{2029}' || c == '\U{202F}' || c == '\U{205F}'
    || c == '\U{3000}' || c == '\U{FEFF}'
  }

  /** True when every character of `s` is whitespace (vacuously so for ""). */
  predicate IsBlank(s: string) {
    forall i :: 0 <= i < |s| ==> IsWhitespace(s[i])
  }

  /** `trimStart`: the longest suffix of `s` that does not begin with whitespace. */
  function TrimStart(s: string): (r: string)
    ensures |r| <= |s| && r == s[|s| - |r|..]
    ensures IsBlank(s[..|s| - |r|])
    ensures r == [] || !IsWhitespace(r[0])
  {
    if |s| > 0 && IsWhitespace(s[0]) then
      var r := TrimStart(s[1..]);
      assert s[..|s| - |r|] == [s[0]] + s[1..][..|s| - 1 - |r|];
      r
    else
      s
  }

  /** `trimEnd`: the longest prefix of `s` that does not end with whitespace. */
  function TrimEnd(s: string): (r: string)
    ensures |r| <= |s| && r == s[..|r|]
    ensures IsBlank(s[|r|..])
    ensures r == [] || !IsWhitespace(r[|r| - 1])
  {
    if |s| > 0 && IsWhitespace(s[|s| - 1]) then
      var r := TrimEnd(s[..|s| - 1]);
      assert s[|r|..] == s[..|s| - 1][|r|..] + [s[|s| - 1]];
      r
    else
      s
  }

  /** `s.trim()`. */
  function Trim(s: string): (r: string)
    ensures |r| <= |s|
    ensures r == [] || (!IsWhitespace(r[0]) && !IsWhitespace(r[|r| - 1]))
  {
    TrimEnd(TrimStart(s))
  }

  /** `s.trim() === ''` holds exactly when `s` consists of whitespace only. */
  lemma TrimEmptyIffBlank(s: string)
    ensures Trim(s) == [] <==> IsBlank(s)
  {
  }

  /** `s.startsWith(p)`. */
  predicate StartsWith(s: string, p: string) {
    |p| <= |s| && s[..|p|] == p
  }

  /** A prefix stays a prefix after upper-casing both strings. */
  lemma StartsWithUpper(s: string, p: string)
    ensures StartsWith(s, p) ==> StartsWith(Upper(s), Upper(p))
  {
    if StartsWith(s, p) {
      assert Upper(s)[..|p|] == Upper(p) by {
        forall i | 0 <= i < |p|
          ensures Upper(s)[..|p|][i] == Upper(p)[i]
        {
          assert s[i] == p[i];
        }
      }
    }
  }
}

=== FILE: watchlist.dfy ===
/**
 * The stock watchlist page: a list of tracked stocks persisted to browser
 * storage, a search box that fetches a quote into a preview, and the chart
 * data derived from a stock's price series.
 *
 * Every React handler and effect is a pure transition on `State`. The quote
 * endpoint's answer is an input (`Fetch`), and browser storage is the
 * abstract `stored` slot: `None` when the key holds nothing.
 */
module Watchlist {
  import opened Wrappers
  import opened Text
  import opened Seqs

  /** Prices are only carried and displayed, never computed with. */
  type Price = real

  /** One watchlist entry, as built from a quote by the search. */
  datatype Stock = Stock(
    companyName: string,
    symbol: string,
    dates: seq<string>,
    prices: seq<Price>,
    currentPrice: Option<Price>,   // `undefined` when the price series is empty
    isHoliday: bool)

  /** The answer of `GET /api/stocks/{symbol}`: the parsed body, or any failure. */
  datatype Fetch = Ok(dates: seq<string>, prices: seq<Price>, isHoliday: bool) | Err

  /** How many of the most recent dates and prices a preview keeps. */
  const PreviewWindow: nat := 30

  /** The message shown after any failed fetch. */
  const FetchErrorMessage: string := "Error fetching stock data. Please try again."

  /** The page's component state plus the storage slot it persists to. */
  datatype State = State(
    query: string,
    stockData: seq<Stock>,
    preview: Option<Stock>,
    loading: bool,
    error: string,
    stored: Option<seq<Stock>>)

  // ---------------------------------------------------------------------------
  // The list of tracked stocks

  /** The symbols present in a list. */
  function Symbols(list: seq<Stock>): set<string> {
    set i | 0 <= i < |list| :: list[i].symbol
  }

  /** No two entries share a symbol. */
  predicate Unique(list: seq<Stock>) {
    forall i, j :: 0 <= i < j < |list| ==> list[i].symbol != list[j].symbol
  }

  /** `list.find(s => s.symbol === symbol)`: an entry carrying `symbol`, if any. */
  function Find(list: seq<Stock>, symbol: string): (r: Option<Stock>)
    ensures r.None? <==> symbol !in Symbols(list)
    ensures r.Some? ==> r.value in list && r.value.symbol == symbol
    ensures r.Some? ==>
              exists k :: 0 <= k < |list| && r.value == list[k] && (forall j :: 0 <= j < k ==> list[j].symbol != symbol)
  {
    if list == [] then None
    else if list[0].symbol == symbol then Some(list[0])
    else
      assert Symbols(list) == {list[0].symbol} + Symbols(list[1..]) by {
        assert forall i :: 1 <= i < |list| ==> list[i] == list[1..][i - 1];
      }
      Find(list[1..], symbol)
  }

  /** `addToWatchlist`'s list update: append unless the symbol is already tracked. */
  function Add(list: seq<Stock>, stock: Stock): (r: seq<Stock>)
    ensures stock.symbol in Symbols(list) ==> r == list
    ensures stock.symbol !in Symbols(list) ==> r == list + [stock]
    ensures Symbols(r) == Symbols(list) + {stock.symbol}
  {
    if Find(list, stock.symbol).Some? then list
    else
      SymbolsAppend(list, stock);
      list + [stock]
  }

  lemma SymbolsAppend(list: seq<Stock>, stock: Stock)
    ensures Symbols(list + [stock]) == Symbols(list) + {stock.symbol}
  {
    var l := list + [stock];
    assert forall i :: 0 <= i < |list| ==> l[i] == list[i];
    assert l[|list|] == stock;
  }

  /** The filter predicate of `removeFromWatchlist`. */
  function KeepsOtherThan(symbol: string): Stock -> bool {
    (s: Stock) => s.symbol != symbol
  }

  /**
   * `removeFromWatchlist`'s list update: drop every entry carrying `symbol`,
   * keeping the others in their original relative order.
   */
  function Remove(list: seq<Stock>, symbol: string): (r: seq<Stock>)
    ensures IsSubsequence(r, list)
    ensures forall i :: 0 <= i < |r| ==> r[i].symbol != symbol
    ensures forall i :: 0 <= i < |list| && list[i].symbol != symbol ==> list[i] in r
    ensures |r| == CountWhere(list, KeepsOtherThan(symbol))
    ensures Symbols(r) == Symbols(list) - {symbol}
    ensures symbol !in Symbols(list) ==> r == list
  {
    FilterKeepsOthers(list, symbol);
    FilterDropsSymbol(list, symbol);
    if symbol !in Symbols(list) then
      FilterWithoutSymbol(list, symbol);
      Filter(list, KeepsOtherThan(symbol))
    else
      Filter(list, KeepsOtherThan(symbol))
  }

  /** The filter in `Remove` keeps every entry with another symbol. */
  lemma FilterKeepsOthers(list: seq<Stock>, symbol: string)
    ensures forall i :: 0 <= i < |list| && list[i].symbol != symbol ==>
              list[i] in Filter(list, KeepsOtherThan(symbol))
  {
    var p := KeepsOtherThan(symbol);
    assert forall i :: 0 <= i < |list| && list[i].symbol != symbol ==> p(list[i]);
  }

  /** The filter in `Remove` drops exactly `symbol` from the tracked symbols. */
  lemma FilterDropsSymbol(list: seq<Stock>, symbol: string)
    ensures Symbols(Filter(list, KeepsOtherThan(symbol))) == Symbols(list) - {symbol}
  {
    var p := KeepsOtherThan(symbol);
    var r := Filter(list, p);
    FilterKeepsOthers(list, symbol);
    SubsequenceMembers(r, list);
    forall x | x in Symbols(r)
      ensures x in Symbols(list) - {symbol}
    {
      var i :| 0 <= i < |r| && r[i].symbol == x;
      assert p(r[i]);
      var k :| 0 <= k < |list| && list[k] == r[i];
    }
    forall x | x in Symbols(list) - {symbol}
      ensures x in Symbols(r)
    {
      var k :| 0 <= k < |list| && list[k].symbol == x;
      assert list[k] in r;
      var i :| 0 <= i < |r| && r[i] == list[k];
    }
  }

  /** The filter in `Remove` leaves a list without `symbol` as it is. */
  lemma FilterWithoutSymbol(list: seq<Stock>, symbol: string)
    requires symbol !in Symbols(list)
    ensures Filter(list, KeepsOtherThan(symbol)) == list
  {
    var p := KeepsOtherThan(symbol);
    assert forall i :: 0 <= i < |list| ==> p(list[i]) by {
      forall i | 0 <= i < |list|
        ensures p(list[i])
      {
        assert list[i].symbol in Symbols(list);
      }
    }
    FilterAll(list, p);
  }

  /** Adding a symbol that is already tracked is a no-op: the first payload wins. */
  lemma AddKeepsFirstPayload(list: seq<Stock>, first: Stock, second: Stock)
    requires first.symbol == second.symbol
    ensures Add(Add(list, first), second) == Add(list, first)
    ensures first.symbol !in Symbols(list) ==> Add(Add(list, first), second)[|list|] == first
  {
  }

  /** Adding the same stock twice is adding it once. */
  lemma AddIdempotent(list: seq<Stock>, stock: Stock)
    ensures Add(Add(list, stock), stock) == Add(list, stock)
  {
    AddKeepsFirstPayload(list, stock, stock);
  }

  /** Removing twice is removing once. */
  lemma RemoveIdempotent(list: seq<Stock>, symbol: string)
    ensures Remove(Remove(list, symbol), symbol) == Remove(list, symbol)
  {
  }

  /** Removing a freshly added stock restores the list: remove undoes add. */
  lemma RemoveUndoesAdd(list: seq<Stock>, stock: Stock)
    requires stock.symbol !in Symbols(list)
    ensures Remove(Add(list, stock), stock.symbol) == list
  {
    var p := KeepsOtherThan(stock.symbol);
    FilterConcat(list, [stock], p);
    assert Filter([stock], p) == [];
    assert forall i :: 0 <= i < |list| ==> list[i].symbol in Symbols(list);
    FilterAll(list, p);
  }

  /** Adding keeps the symbols unique. */
  lemma AddPreservesUnique(list: seq<Stock>, stock: Stock)
    requires Unique(list)
    ensures Unique(Add(list, stock))
  {
    if stock.symbol !in Symbols(list) {
      var l := list + [stock];
      forall i, j | 0 <= i < j < |l|
        ensures l[i].symbol != l[j].symbol
      {
        if j == |list| {
          assert l[i] == list[i];
          assert list[i].symbol in Symbols(list);
        }
      }
    }
  }

  /** Putting a stock with a fresh symbol in front of a duplicate-free list keeps it duplicate-free. */
  lemma UniqueCons(x: Stock, tail: seq<Stock>)
    requires Unique(tail) && x.symbol !in Symbols(tail)
    ensures Unique([x] + tail)
  {
    var l := [x] + tail;
    forall i, j | 0 <= i < j < |l|
      ensures l[i].symbol != l[j].symbol
    {
      assert l[j] == tail[j - 1];
      if i == 0 {
        assert tail[j - 1].symbol in Symbols(tail);
      } else {
        assert l[i] == tail[i - 1];
      }
    }
  }

  /** Removing from a list with a given head: the head stays exactly when it carries another symbol. */
  lemma RemoveCons(x: Stock, rest: seq<Stock>, symbol: string)
    ensures Remove([x] + rest, symbol) ==
            if x.symbol != symbol then [x] + Remove(rest, symbol) else Remove(rest, symbol)
  {
    var p := KeepsOtherThan(symbol);
    FilterConcat([x], rest, p);
    assert Filter([x], p) == if p(x) then [x] else [];
  }

  /** Removing keeps the symbols unique. */
  lemma {:induction false} RemovePreservesUnique(list: seq<Stock>, symbol: string)
    requires Unique(list)
    ensures Unique(Remove(list, symbol))
  {
    if list != [] {
      var rest := list[1..];
      assert Unique(rest) by {
        assert forall i :: 0 <= i < |rest| ==> rest[i] == list[i + 1];
      }
      RemovePreservesUnique(rest, symbol);
      assert list == [list[0]] + rest;
      RemoveCons(list[0], rest, symbol);
      if list[0].symbol != symbol {
        UniqueCons(list[0], Remove(rest, symbol));
      }
    }
  }

  // ---------------------------------------------------------------------------
  // Sequences of add and remove, against a plain set of symbols

  datatype ListOp = AddOp(stock: Stock) | RemoveOp(symbol: string)

  /** The list after applying `ops` in order. */
  function ApplyAll(list: seq<Stock>, ops: seq<ListOp>): seq<Stock>
    decreases |ops|
  {
    if ops == [] then list
    else
      var next := match ops[0]
        case AddOp(stock) => Add(list, stock)
        case RemoveOp(symbol) => Remove(list, symbol);
      ApplyAll(next, ops[1..])
  }

  /** The symbols a set-of-symbols model keeps after `ops`: added and not removed since. */
  function TrackedSymbols(symbols: set<string>, ops: seq<ListOp>): set<string>
    decreases |ops|
  {
    if ops == [] then symbols
    else
      var next := match ops[0]
        case AddOp(stock) => symbols + {stock.symbol}
        case RemoveOp(symbol) => symbols - {symbol};
      TrackedSymbols(next, ops[1..])
  }

  /**
   * Any sequence of adds and removes leaves exactly the symbols the set
   * model predicts, and never introduces a duplicate.
   */
  lemma {:induction false} ApplyAllMatchesSetModel(list: seq<Stock>, ops: seq<ListOp>)
    requires Unique(list)
    ensures Symbols(ApplyAll(list, ops)) == TrackedSymbols(Symbols(list), ops)
    ensures Unique(ApplyAll(list, ops))
    decreases |ops|
  {
    if ops != [] {
      match ops[0]
      case AddOp(stock) =>
        AddPreservesUnique(list, stock);
        ApplyAllMatchesSetModel(Add(list, stock), ops[1..]);
      case RemoveOp(symbol) =>
        RemovePreservesUnique(list, symbol);
        ApplyAllMatchesSetModel(Remove(list, symbol), ops[1..]);
    }
  }

  // ---------------------------------------------------------------------------
  // The preview built from a fetched quote, and its chart data

  /** The preview object `fetchStockData` builds from a successful response. */
  function MakePreview(symbol: string, dates: seq<string>, prices: seq<Price>, isHoliday: bool): (r: Stock)
    ensures r.companyName == symbol && r.symbol == symbol && r.isHoliday == isHoliday
    ensures IsLastN(r.dates, dates, PreviewWindow) && IsLastN(r.prices, prices, PreviewWindow)
    ensures r.currentPrice.Some? <==> prices != []
    ensures prices != [] ==> r.currentPrice == Some(prices[|prices| - 1])
  {
    var window := -(PreviewWindow as int);
    SliceNegativeIsLastN(dates, PreviewWindow);
    SliceNegativeIsLastN(prices, PreviewWindow);
    Stock(symbol, symbol, Slice(dates, window), Slice(prices, window), At(prices, |prices| - 1), isHoliday)
  }

  /**
   * A preview holds at most 30 dates and prices, its current price is the
   * last price it charts, and aligned input arrays give aligned previews.
   */
  lemma PreviewShape(symbol: string, dates: seq<string>, prices: seq<Price>, isHoliday: bool)
    ensures var r := MakePreview(symbol, dates, prices, isHoliday);
            && |r.dates| <= PreviewWindow && |r.prices| <= PreviewWindow
            && (prices != [] ==> r.prices != [] && r.currentPrice == Some(r.prices[|r.prices| - 1]))
            && (|dates| == |prices| ==> |r.dates| == |r.prices|)
  {
    var r := MakePreview(symbol, dates, prices, isHoliday);
    if prices != [] {
      assert r.prices[|r.prices| - 1] == prices[|prices| - |r.prices| + |r.prices| - 1];
    }
  }

  /** One point of a line chart; the price is `undefined` past the end of the price series. */
  datatype ChartPoint = ChartPoint(date: string, price: Option<Price>)

  /** `formatChartData`: one point per date, paired with the price at the same index. */
  function ChartData(dates: seq<string>, prices: seq<Price>): (r: seq<ChartPoint>)
    ensures |r| == |dates|
    ensures forall i :: 0 <= i < |r| ==> r[i].date == dates[i]
    ensures forall i :: 0 <= i < |r| ==> (r[i].price.Some? <==> i < |prices|)
    ensures forall i :: 0 <= i < |r| && i < |prices| ==> r[i].price == Some(prices[i])
  {
    seq(|dates|, i requires 0 <= i < |dates| => ChartPoint(dates[i], At(prices, i)))
  }

  /** Splits chart points back into dates and prices; `None` if some price is missing. */
  function Unzip(points: seq<ChartPoint>): Option<(seq<string>, seq<Price>)> {
    if points == [] then Some(([], []))
    else
      match Unzip(points[1..])
      case None => None
      case Some((ds, ps)) =>
        match points[0].price
        case None => None
        case Some(p) => Some(([points[0].date] + ds, [p] + ps))
  }

  /**
   * The chart loses nothing and invents nothing: unzipping it gives back the
   * dates with the matching prefix of the prices, and fails exactly when
   * there are fewer prices than dates.
   */
  lemma {:induction false} ChartDataUnzips(dates: seq<string>, prices: seq<Price>)
    ensures Unzip(ChartData(dates, prices)) ==
            if |dates| <= |prices| then Some((dates, prices[..|dates|])) else None
  {
    var pts := ChartData(dates, prices);
    if dates != [] {
      if prices == [] {
        ChartDataUnzips(dates[1..], prices);
        assert pts[0].price == None;
      } else {
        ChartDataUnzips(dates[1..], prices[1..]);
        assert pts[1..] == ChartData(dates[1..], prices[1..]);
        if |dates| <= |prices| {
          assert dates == [dates[0]] + dates[1..];
          assert prices[..|dates|] == [prices[0]] + prices[1..][..|dates| - 1];
        }
      }
    }
  }

  /** Aligned arrays chart to points that unzip back to the same arrays. */
  lemma AlignedChartUnzips(dates: seq<string>, prices: seq<Price>)
    requires |dates| == |prices|
    ensures Unzip(ChartData(dates, prices)) == Some((dates, prices))
  {
    ChartDataUnzips(dates, prices);
    assert prices[..|dates|] == prices;
  }

  /** A preview built from aligned arrays charts every point with a price. */
  lemma PreviewChartComplete(symbol: string, dates: seq<string>, prices: seq<Price>, isHoliday: bool)
    requires |dates| == |prices|
    ensures var p := MakePreview(symbol, dates, prices, isHoliday);
            Unzip(ChartData(p.dates, p.prices)) == Some((p.dates, p.prices))
  {
    var p := MakePreview(symbol, dates, prices, isHoliday);
    PreviewShape(symbol, dates, prices, isHoliday);
    AlignedChartUnzips(p.dates, p.prices);
  }

  /**
   * Adding the preview of AAPL priced 150.0 then 151.2 to an empty list
   * tracks one stock priced 151.2; adding another AAPL payload afterwards
   * leaves that single first entry in place.
   */
  lemma AddAaplTwiceScenario(s: State, other: Stock)
    requires s.stockData == [] && other.symbol == "AAPL"
    ensures var first := AddToWatchlist(s, MakePreview("AAPL", ["d1", "d2"], [150.0, 151.2], false));
            && |first.stockData| == 1 && first.stockData[0].currentPrice == Some(151.2)
            && AddToWatchlist(first, other) == first
  {
    var p := MakePreview("AAPL", ["d1", "d2"], [150.0, 151.2], false);
    var first := AddToWatchlist(s, p);
    assert first.stockData == [p];
    assert first.stockData[0].symbol == "AAPL";
  }

  // ---------------------------------------------------------------------------
  // Persistence effects

  /** The page before any effect has run. */
  function Initial(stored: Option<seq<Stock>>): State {
    State("", [], None, false, "", stored)
  }

  /**
   * The save effect, run after every `setStockData`: writes the whole list,
   * but only when it is non-empty.
   */
  function Persist(s: State): (r: State)
    ensures |s.stockData| > 0 ==> r.stored == Some(s.stockData)
    ensures |s.stockData| == 0 ==> r.stored == s.stored
    ensures r.(stored := s.stored) == s
  {
    if |s.stockData| > 0 then s.(stored := Some(s.stockData)) else s
  }

  /** The load effect: replaces the list when storage holds a value (even an empty list). */
  function Load(s: State): (r: State)
    ensures s.stored.Some? ==> r.stockData == s.stored.value
    ensures s.stored.None? ==> r == s
    ensures r.(stockData := s.stockData) == s
  {
    match s.stored
    case Some(list) => s.(stockData := list)
    case None => s
  }

  /**
   * Mounting the page: the load effect runs, and when it called
   * `setStockData` the save effect runs again on the loaded list.
   */
  function Mount(stored: Option<seq<Stock>>): (r: State)
    ensures r.stockData == (if stored.Some? then stored.value else [])
    ensures r.stored == stored
    ensures r.preview.None? && !r.loading && r.error == "" && r.query == ""
  {
    var loaded := Load(Initial(stored));
    if stored.Some? then Persist(loaded) else loaded
  }

  // ---------------------------------------------------------------------------
  // Search

  /** The search box's `onChange`: the query is always upper-cased. */
  function InputChange(s: State, text: string): (r: State)
    ensures NoLower(r.query) && |r.query| == |text|
    ensures forall i :: 0 <= i < |text| ==> r.query[i] == UpperChar(text[i])
    ensures r.(query := s.query) == s
  {
    s.(query := Upper(text))
  }

  /**
   * `handleSearch` up to the network call: a blank query does nothing;
   * otherwise loading starts, the error clears, and the upper-cased query is
   * the symbol requested.
   */
  function BeginSearch(s: State): (r: (State, Option<string>))
    ensures IsBlank(s.query) ==> r == (s, None)
    ensures !IsBlank(s.query) ==> r.1 == Some(Upper(s.query))
    ensures !IsBlank(s.query) ==> r.0 == s.(loading := true, error := "")
  {
    TrimEmptyIffBlank(s.query);
    if Trim(s.query) == [] then (s, None)
    else (s.(loading := true, error := ""), Some(Upper(s.query)))
  }

  /** The rest of `fetchStockData` once the response is known; `loading` always ends false. */
  function CompleteFetch(s: State, symbol: string, fetch: Fetch): (r: State)
    ensures !r.loading
    ensures r.stockData == s.stockData && r.stored == s.stored && r.query == s.query
    ensures fetch.Err? ==> r.error == FetchErrorMessage && r.preview == s.preview
    ensures fetch.Ok? ==> r.error == s.error
    ensures fetch.Ok? ==> r.preview == Some(MakePreview(symbol, fetch.dates, fetch.prices, fetch.isHoliday))
  {
    match fetch
    case Ok(dates, prices, isHoliday) =>
      s.(preview := Some(MakePreview(symbol, dates, prices, isHoliday)), loading := false)
    case Err =>
      s.(error := FetchErrorMessage, loading := false)
  }

  /** A whole search, from the click to the settled response. */
  function Search(s: State, fetch: Fetch): (r: State)
    ensures IsBlank(s.query) ==> r == s
    ensures r.query == s.query
    ensures !IsBlank(s.query) && fetch.Err? ==> r == s.(error := FetchErrorMessage, loading := false)
    ensures !IsBlank(s.query) && fetch.Ok? ==> r.(preview := s.preview, error := s.error, loading := s.loading) == s
    ensures !IsBlank(s.query) ==> !r.loading && r.stockData == s.stockData && r.stored == s.stored
    ensures !IsBlank(s.query) && fetch.Err? ==> r.error == FetchErrorMessage && r.preview == s.preview
    ensures !IsBlank(s.query) && fetch.Ok? ==> r.error == ""
    ensures !IsBlank(s.query) && fetch.Ok? ==>
              r.preview == Some(MakePreview(Upper(s.query), fetch.dates, fetch.prices, fetch.isHoliday))
  {
    match BeginSearch(s)
    case (_, None) => s
    case (started, Some(symbol)) => CompleteFetch(started, symbol, fetch)
  }

  // ---------------------------------------------------------------------------
  // Add and remove handlers, with the save effect they trigger

  /** `addToWatchlist`: the list changes, and is saved, only when the symbol is new. */
  function AddToWatchlist(s: State, stock: Stock): (r: State)
    ensures stock.symbol in Symbols(s.stockData) ==> r == s
    ensures stock.symbol !in Symbols(s.stockData) ==>
              r.stockData == s.stockData + [stock] && r.stored == Some(r.stockData)
    ensures r.(stockData := s.stockData, stored := s.stored) == s
  {
    if Find(s.stockData, stock.symbol).Some? then s
    else Persist(s.(stockData := Add(s.stockData, stock)))
  }

  /** `removeFromWatchlist`; the save effect runs but skips an emptied list. */
  function RemoveFromWatchlist(s: State, symbol: string): (r: State)
    ensures r.stockData == Remove(s.stockData, symbol)
    ensures r.stockData != [] ==> r.stored == Some(r.stockData)
    ensures r.stockData == [] ==> r.stored == s.stored
    ensures r.(stockData := s.stockData, stored := s.stored) == s
  {
    Persist(s.(stockData := Remove(s.stockData, symbol)))
  }

  /** User actions on the page; searches carry the response they will get. */
  datatype Event =
    | Type(text: string)
    | SearchClick(fetch: Fetch)
    | KeyPress(isEnter: bool, fetch: Fetch)
    | AddClick
    | RemoveClick(symbol: string)

  /** One user action. The add button is only rendered while a preview is shown. */
  function Step(s: State, e: Event): (r: State)
    ensures e.Type? || e.SearchClick? || e.KeyPress? ==> r.stockData == s.stockData && r.stored == s.stored
    ensures e.Type? || e.AddClick? || e.RemoveClick? ==> r.preview == s.preview
    ensures e.KeyPress? && !e.isEnter ==> r == s
    ensures e.AddClick? && s.preview.None? ==> r == s
    ensures e.Type? ==> r == InputChange(s, e.text)
    ensures e.SearchClick? || (e.KeyPress? && e.isEnter) ==> r == Search(s, e.fetch)
    ensures e.AddClick? && s.preview.Some? ==> r == AddToWatchlist(s, s.preview.value)
    ensures e.RemoveClick? ==> r == RemoveFromWatchlist(s, e.symbol)
  {
    match e
    case Type(text) => InputChange(s, text)
    case SearchClick(fetch) => Search(s, fetch)
    case KeyPress(isEnter, fetch) => if isEnter then Search(s, fetch) else s
    case AddClick => if s.preview.Some? then AddToWatchlist(s, s.preview.value) else s
    case RemoveClick(symbol) => RemoveFromWatchlist(s, symbol)
  }

  /**
   * What every reachable page state satisfies: unique symbols in the list
   * and in storage, and a non-empty list always mirrored in storage.
   */
  predicate Inv(s: State) {
    && Unique(s.stockData)
    && (s.stored.Some? ==> Unique(s.stored.value))
    && (|s.stockData| > 0 ==> s.stored == Some(s.stockData))
  }

  /** Mounting on storage this page wrote establishes the invariant. */
  lemma MountEstablishesInv(stored: Option<seq<Stock>>)
    requires stored.Some? ==> Unique(stored.value)
    ensures Inv(Mount(stored))
  {
  }

  /** Every user action keeps the invariant. */
  lemma StepPreservesInv(s: State, e: Event)
    requires Inv(s)
    ensures Inv(Step(s, e))
  {
    match e
    case AddClick =>
      if s.preview.Some? {
        AddPreservesUnique(s.stockData, s.preview.value);
      }
    case RemoveClick(symbol) =>
      RemovePreservesUnique(s.stockData, symbol);
    case _ =>
  }

  /**
   * Removing the only tracked stock empties the list but leaves the old
   * snapshot in storage, so mounting the page again brings the stock back.
   */
  lemma RemoveLastIsNotPersisted(s: State, stock: Stock)
    requires Inv(s) && s.stockData == [stock]
    ensures RemoveFromWatchlist(s, stock.symbol).stockData == []
    ensures RemoveFromWatchlist(s, stock.symbol).stored == Some([stock])
    ensures Mount(RemoveFromWatchlist(s, stock.symbol).stored).stockData == [stock]
  {
    assert [stock][1..] == [];
    assert CountWhere([stock], KeepsOtherThan(stock.symbol)) == 0;
  }

  /** Saving a non-empty list and mounting again gives the same list back. */
  lemma ReloadAfterPersist(s: State)
    requires |s.stockData| > 0
    ensures Mount(Persist(s).stored).stockData == s.stockData
  {
  }

  // ---------------------------------------------------------------------------
  // Write-through persistence: the save effect without the empty-list guard

  /** Saves the list whenever it changed, including when it became empty. */
  function PersistOnChange(s: State): (r: State)
    ensures r.stored == Some(s.stockData)
    ensures r.(stored := s.stored) == s
  {
    s.(stored := Some(s.stockData))
  }

  /** `removeFromWatchlist` followed by the write-through save. */
  function RemoveWriteThrough(s: State, symbol: string): (r: State)
    ensures r.stockData == Remove(s.stockData, symbol)
    ensures r.stored == Some(r.stockData)
    ensures r.(stockData := s.stockData, stored := s.stored) == s
  {
    PersistOnChange(s.(stockData := Remove(s.stockData, symbol)))
  }

  /** `addToWatchlist` followed by the write-through save. */
  function AddWriteThrough(s: State, stock: Stock): (r: State)
    ensures r.stockData == Add(s.stockData, stock)
    ensures stock.symbol !in Symbols(s.stockData) ==> r.stored == Some(r.stockData)
    ensures stock.symbol in Symbols(s.stockData) ==> r == s
    ensures r.(stockData := s.stockData, stored := s.stored) == s
  {
    if Find(s.stockData, stock.symbol).Some? then s
    else PersistOnChange(s.(stockData := Add(s.stockData, stock)))
  }

  /** One user action under write-through saving. */
  function StepWriteThrough(s: State, e: Event): State {
    match e
    case AddClick => if s.preview.Some? then AddWriteThrough(s, s.preview.value) else s
    case RemoveClick(symbol) => RemoveWriteThrough(s, symbol)
    case _ => Step(s, e)
  }

  /** Storage always holds the list, or nothing while the list is still empty. */
  predicate InSync(s: State) {
    match s.stored
    case Some(list) => list == s.stockData
    case None => s.stockData == []
  }

  /**
   * Under write-through saving every action keeps storage in sync, so
   * mounting the page again shows exactly the list the user left.
   */
  lemma WriteThroughReloadsSameList(s: State, e: Event)
    requires InSync(s)
    ensures InSync(StepWriteThrough(s, e))
    ensures Mount(StepWriteThrough(s, e).stored).stockData == StepWriteThrough(s, e).stockData
  {
  }
}

=== FILE: wrappers.dfy ===
/** Optional values and results used across the model. */
module Wrappers {

  /** A value that may be absent; stands in for JavaScript's `undefined` and `null`. */
  datatype Option<+T> = None | Some(value: T)

  /** Either a value or an error. */
  datatype Result<+R, +E> = Success(value: R) | Failure(error: E)
}
